=== FILE: README.md ===
# AIMathTutor chat backend — a Dafny model

This project models the core of the AIMathTutor backend (`backend/server.js`):

- **`renderManim`**, which turns Manim scene code written by the language model into a
  video URL. It extracts the scene class name with a regular expression and rejects code
  without one. It applies three textual fix-ups for deprecated Manim calls and puts
  `from manim import *` in front when the code lacks it. It writes the result to
  `<id>.py`, runs `manim -ql <script> <scene> --media_dir ./public -o <scene>_<id>` and
  deletes the script when the renderer closes. On exit code 0 it resolves with
  `/videos/<id>/480p15/<scene>_<id>.mp4`. Otherwise it rejects with the exit code and
  everything the renderer wrote to stderr.
- **The `/api/chat` response policy.** It decides the status, `reply` and `videoUrl` from
  the model's parsed answer and from the render's outcome. A failed render only appends an
  apology to the explanation. A failure of the completion call or of `JSON.parse` gives a
  500 with a fixed message.

Every operation is a pure function, except the stderr listener, which is a loop
(`CollectStderr`) proved to accumulate the same text. The outside world's choices are parameters (`RenderEnv`):
the id `uuidv4()` returns, the server directory, the exit status `close` reports, and the
stderr chunks. File writes, the process spawn and the unlink are returned as a trace of
`Effect`s. The answer of the language model enters as the value `JSON.parse` produced, or
`None` when the call or the parse threw.

The regular expressions are written out as the deterministic scanners they amount to.
None of them needs real backtracking. In `class\s+([a-zA-Z0-9_]+)\(Scene\):` the capture
is always the maximal word run, because `(` must follow it. The lazy `.*?\)` stops at the first `)` on the same line. The lazy
`.+?\)` first takes one character, which may itself be `)`, and then stops at the first `)`
on the same line: `axes.get_tangent_line(x,))` is consumed up to the second `)`. The `i` flag folds only ASCII letters here, since
without the `u` flag no other character can fold onto an ASCII pattern character.
Lemmas relate each scanner to a declarative description of the text it matches, in both
directions. Global replacement of a literal is also related to `split`/`join`.

Files: `base.dfy` (Option), `jstext.dfy` (JavaScript white space, `trim`, `startsWith`,
integer-to-text, `+=` accumulation), `json.dfy` (parsed JSON values, truthiness, property
access, string conversion), `rewrite.dfy` (the regular expressions and global replace),
`render.dfy` (`renderManim`), `chat.dfy` (the handler).

## Model

| member | source | states |
|---|---|---|
| Rewrite.SceneName | backend/server.js:28-32 | The scene name, when found, is a non-empty run of `[a-zA-Z0-9_]` captured at the leftmost position of non-empty code where the pattern matches; it is absent exactly when the pattern matches at no position of the code. |
| Rewrite.FirstScene | backend/server.js:28 | `match` without `g` takes the leftmost match: the pattern matches at the returned start and at no earlier position. |
| Rewrite.SceneAtIsDecl | backend/server.js:28 | The scanner captures `name` at a position exactly when the text there is `class`, one or more white-space characters, `name`, `(Scene):`. |
| Rewrite.NoSceneMeansNoDeclaration | backend/server.js:28-31 | No scene name is found (and the render is rejected) exactly when no position of the code holds such a declaration. |
| Rewrite.TangentLineMatchesShape | backend/server.js:38 | Every `axes.get_tangent_line(` call (any letter case) with white space, a word argument, a comma, one further character on the line (which may be `)`) and then a `)` on the same line is rewritten to `axes.get_derivative_graph(<argument>)`, consuming up to the first `)` after that one character. |
| Rewrite.TangentLineMatchHasShape | backend/server.js:38 | The tangent-line rule matches only texts of that shape, and its replacement keeps the captured argument. |
| Rewrite.AnimateCallMatches | backend/server.js:39 | `Animate(x)` matches exactly when a `)` follows on the same line; it becomes `x.animate` with `x` ending at the first such `)`. |
| Rewrite.ReplaceWithoutMatch | backend/server.js:37-40 | A rewrite whose pattern matches nowhere leaves the code unchanged. |
| Rewrite.SplitJoin | backend/server.js:40 | Cutting the code at each `ShowCreation` loses nothing: joining the pieces with the pattern gives the code back. |
| Rewrite.ReplaceIsSplitJoin | backend/server.js:40 | Replacing a literal everywhere equals cutting at its occurrences and joining the untouched pieces with the replacement. |
| Rewrite.SplitPiecesAreFree | backend/server.js:40 | No piece between the cut points contains the pattern, so every occurrence is replaced. |
| Rewrite.NoShowCreationLeft | backend/server.js:40 | After the fix-up the text contains no `ShowCreation`, not even one formed where `Create` meets its neighbours. |
| Render.CorrectCode | backend/server.js:37-40 | The corrected code contains no `ShowCreation`. |
| Render.InjectPreamble | backend/server.js:42-44 | After injection the trimmed code starts with `from manim import *`; code already starting so is unchanged; otherwise the import line and a blank line stand before the code, which is always kept as the tail. |
| Render.InjectPreambleIdempotent | backend/server.js:42-44 | Injecting twice equals injecting once. |
| Render.PreparedSource | backend/server.js:37-46 | The text written to the script file ends with the corrected code, starts (after trimming) with the import line, and contains no `ShowCreation`. |
| Render.NoShowCreationAfterPreamble | backend/server.js:42-44 | Prepending the import line cannot create a `ShowCreation`. |
| Render.VideoUrlRoundTrip | backend/server.js:64 | For every id `uuidv4` can return, the id and the scene name can be read back from the video URL. |
| Render.VideoUrlIsRendererOutput | backend/server.js:48-52 | The URL, served from the media directory, is the very file the renderer writes for script `<id>.py`, quality `-ql` and output name `<scene>_<id>`. |
| Render.FailureMessageRoundTrip | backend/server.js:67 | The rejection message carries the exit code (or `null` after a signal) and the complete stderr text, and both can be read back. |
| Render.CollectStderr | backend/server.js:54-58 | The stderr listener accumulates exactly the concatenation of the chunks in arrival order. |
| JsText.ConcatKeepsChunks | backend/server.js:56 | Every chunk appears verbatim in the accumulated text, after all earlier chunks. |
| Render.RenderManim | backend/server.js:26-71 | No effect at all when the code is not a string or has no scene; otherwise write, spawn and unlink of the same `<id>.py`, the write carrying exactly the prepared source of the code; resolves exactly on exit code 0, with the URL of `<scene>_<id>`; otherwise it rejects with a renderer failure whose message carries exit status and stderr. |
| Render.RenderScene | backend/server.js:33-68 | Once a scene is named, the script is written, run and unlinked on both paths; resolves exactly on exit code 0, rejects with the renderer failure otherwise. |
| Render.SettleOnClose | backend/server.js:60-68 | The `close` handler resolves exactly on exit code 0, with the video URL; otherwise it rejects with a message from which the exit status and the stderr text can be read back. |
| Render.EffectsIgnoreRendererVerdict | backend/server.js:60-61 | What is written, spawned and deleted does not depend on the exit status or stderr: the script is deleted on success and on failure. |
| Render.RenderedUrlNamesIdAndScene | backend/server.js:63-65 | A resolved URL names the request's id and the scene the code declares. |
| Json.GetProperty | backend/server.js:99 | Reading a property throws exactly on `null`/`undefined`; on an object with the key it gives that key's value; in every other readable case it gives `undefined`. |
| Json.ToJsString | backend/server.js:106 | The text `+=` appends to: a string is itself; an object throws exactly when it has an own `toString` key; an array throws exactly when one of its items does; the other values always convert. |
| Chat.HandleChat | backend/server.js:73-119 | Status 500 with `Failed to get response from AI.` exactly when the call or parse failed, the answer is `null`, or a failed render meets an explanation whose `+=` throws; a 500 has effects only in that last case; otherwise 200 with a reply; a readable answer with truthy `manim_code` has exactly the effects of rendering that code, and no other answer has effects; a URL only from a resolved render. |
| Chat.NoCodeNoRender | backend/server.js:98-113 | Without a truthy `manim_code` nothing is rendered, `videoUrl` is null and `reply` is the explanation verbatim. |
| Chat.RenderedReply | backend/server.js:100-113 | Text code that declares a scene and exits with code 0 gives status 200, the explanation unchanged and the URL `/videos/<id>/480p15/<scene>_<id>.mp4`. |
| Chat.FailedRenderReply | backend/server.js:104-113 | Truthy code that is not text, declares no scene or exits with any status other than code 0, with an explanation that has a text form, gives status 200, that text followed by the fixed apology, and a null URL. |
| Chat.FailedRenderWithoutText | backend/server.js:104-117 | The same failed render with an explanation that has no text form gives status 500 with the fixed error, after the script was written, run and removed. |
| Chat.StatusIgnoresRenderer | backend/server.js:99-117 | Where the explanation has a text form, the renderer never changes the status: only failures outside the inner `try` give 500. |
| Chat.ExplanationAlwaysDelivered | backend/server.js:104-111 | A string explanation always reaches the user with status 200 as the beginning of the reply. |
| Chat.MissingVideoApologises | backend/server.js:104-106 | When a video was requested, none is returned and the explanation has a text form, the reply ends with the apology. |
| Chat.ReplyUrlNamesIdAndScene | backend/server.js:102-112 | The answer is a reply (not an error) exactly when the apology's `+=` does not throw; a URL in the reply exists only for string code with a scene and exit code 0, and names the request's id and that scene. |
| Chat.RendererDecidesStatus | backend/server.js:99-117 | For an explanation without a text form and code that declares a scene, exit code 0 gives status 200 and exit code 1 gives 500. |
| Chat.ExampleAnswerFlipsStatus | backend/server.js:99-117 | For the answer `{"explanation": {"toString": 1}, "manim_code": "class A(Scene):"}` the status is 200 after exit code 0 and 500 after exit code 1. |
| Chat.HandleChatCorrected | backend/server.js:104-107 | With the apology made the whole reply when the explanation has no text form: 500 exactly when the call or parse failed or the answer is `null`; the same effects as the handler; every failed render gives 200, no URL and a reply ending with the apology. |
| Chat.CorrectedStatusIgnoresRenderer | backend/server.js:99-117 | In the corrected handler the renderer never changes the status. |

## Left out

- The OpenAI client, the prompt text and the completion call (lines 21-23, 77-95): a network API. Their result enters as the parsed answer, or `None` when they threw.
- `JSON.parse` itself: the model starts from the value it returns. Numbers are integers of magnitude at most 2^53, where `String(n)` is the plain decimal numeral. Integers of larger magnitude (which JavaScript prints as the shortest round-trip digits padded with zeros) and fractional numbers are not represented.
- `uuidv4()`, `fs.writeFileSync`, `spawn`, the stderr stream and `fs.unlinkSync` are inputs or effects. Failures of the file system, a missing `manim` executable (an `error` event the code does not handle) and a failing unlink are not modelled.
- `path.join(__dirname, ...)` is modelled as `<dir>/<id>.py`. This ignores the normalisation `path.join` does for unusual directory names.
- `./public` is resolved against the process's working directory. Static serving uses the server's own directory. The model takes the two as the same directory.
- Strings are sequences of Unicode characters, not UTF-16 code units. Stderr chunks are taken as already decoded text. None of the patterns involved can tell the difference.
- `console.log`/`console.error`, Express, CORS, static serving and `app.listen`: logging and HTTP plumbing.
- Json.ToJsString: states when the conversion throws and that a string converts to itself; the texts of the other values are its definition.
- FailedRenderReply: covers explanations with a text form; the other case is `Chat.FailedRenderWithoutText`, which answers 500 (see Findings).
- StatusIgnoresRenderer: holds only where the explanation has a text form, because the handler lets the renderer decide the status otherwise (see Findings).
- MissingVideoApologises: holds only where the explanation has a text form; otherwise the answer is a 500 without a reply.
- A renderer that never emits `close` leaves the promise pending, and the request is then never answered, since no timeout is set. `RenderEnv` always supplies an exit status, so the model covers only runs in which the renderer ends.
- Concurrency between requests: each request is modelled alone, and the only thing requests share is the file system.

## Findings

| source | as written | input that shows it | evidently intended | confidence | as-written member | corrected member |
|---|---|---|---|---|---|---|
| backend/server.js:104-107 | the apology is appended with `+=` inside the `catch` of the render; when the explanation has no text form that `+=` throws, the outer `catch` answers 500, and a failed render turns the response into an error | `{"explanation": {"toString": 1}, "manim_code": "class A(Scene):"}`: exit code 0 gives 200, exit code 1 gives 500 | a failed render only adds the apology and never changes the status | medium, not executed | Chat.ExampleAnswerFlipsStatus | Chat.CorrectedStatusIgnoresRenderer |

=== FILE: base.dfy ===
/** The optional value used throughout the model: `None` stands for JavaScript's
    missing match, missing property or thrown exception, as each use says. */
module Base {
  datatype Option<+T> = None | Some(value: T)
}

=== FILE: chat.dfy ===
/**
 * The response policy of `POST /api/chat`: from what the model answered (as
 * `JSON.parse` returned it) and from what the renderer does, the effects the
 * request causes and the status and body it is answered with.
 */
module Chat {
  import opened Base
  import opened JsText
  import opened Json
  import opened Rewrite
  import opened Render

  const Apology := "\n\n(Sorry, I was unable to generate the animation for this.)"
  const AiFailure := "Failed to get response from AI."
  const CodeKey := "manim_code"
  const ExplanationKey := "explanation"

  /** `res.json({ reply, videoUrl })` or `res.status(500).json({ error })`. A `reply` of
      `Undefined` is a body in which `JSON.stringify` leaves the key out. */
  datatype Body = ChatReply(reply: JsValue, videoUrl: Option<string>) | ErrorReply(error: string)

  datatype HttpResponse = HttpResponse(status: int, body: Body)

  datatype Exchange = Exchange(effects: seq<Effect>, response: HttpResponse)

  /** A parsed answer whose properties can be read without a TypeError. */
  predicate Readable(ai: JsValue) {
    ai != Null && ai != Undefined
  }

  function ManimCode(ai: JsValue): JsValue
    requires Readable(ai)
  {
    GetProperty(ai, CodeKey).value
  }

  function Explanation(ai: JsValue): JsValue
    requires Readable(ai)
  {
    GetProperty(ai, ExplanationKey).value
  }

  /** The `+=` of the apology throws: a render was attempted and failed, and the
      explanation has no text form. The outer `catch` then answers instead. */
  predicate AppendThrows(ai: JsValue, env: RenderEnv)
    requires Readable(ai)
  {
    && Truthy(ManimCode(ai))
    && RenderManim(ManimCode(ai), env).outcome.Rejected?
    && ToJsString(Explanation(ai)).None?
  }

  /** The handler. `parsed` is `None` when creating the completion or `JSON.parse` threw;
      both happen before anything below and end in the outer `catch`. */
  function HandleChat(parsed: Option<JsValue>, env: RenderEnv): (x: Exchange)
    ensures x.response.status == 500 <==>
      parsed.None? || !Readable(parsed.value) || AppendThrows(parsed.value, env)
    ensures x.response.status == 500 ==> x.response.body == ErrorReply(AiFailure)
    ensures x.response.status == 500 && x.effects != [] ==>
      parsed.Some? && Readable(parsed.value) && AppendThrows(parsed.value, env)
    ensures x.response.status != 500 ==> x.response.status == 200 && x.response.body.ChatReply?
    ensures x.effects != [] ==> parsed.Some? && Readable(parsed.value) && Truthy(ManimCode(parsed.value))
    ensures parsed.Some? && Readable(parsed.value) && Truthy(ManimCode(parsed.value)) ==>
      x.effects == RenderManim(ManimCode(parsed.value), env).effects
    ensures x.response.body.ChatReply? && x.response.body.videoUrl.Some? ==>
      && parsed.Some? && Readable(parsed.value)
      && RenderManim(ManimCode(parsed.value), env).outcome == Resolved(x.response.body.videoUrl.value)
  {
    match parsed
    case None => Exchange([], HttpResponse(500, ErrorReply(AiFailure)))
    case Some(ai) =>
      match GetProperty(ai, CodeKey)
      case None => Exchange([], HttpResponse(500, ErrorReply(AiFailure)))
      case Some(code) =>
        var explanation := Explanation(ai);
        if !Truthy(code) then
          Exchange([], HttpResponse(200, ChatReply(explanation, None)))
        else
          var run := RenderManim(code, env);
          match run.outcome
          case Resolved(url) => Exchange(run.effects, HttpResponse(200, ChatReply(explanation, Some(url))))
          case Rejected(_) =>
            match ToJsString(explanation)
            case Some(text) => Exchange(run.effects, HttpResponse(200, ChatReply(Str(text + Apology), None)))
            case None => Exchange(run.effects, HttpResponse(500, ErrorReply(AiFailure)))
  }

  /** Without a truthy `manim_code` nothing is rendered: no file, no process, no URL,
      and the explanation is the reply verbatim. */
  lemma NoCodeNoRender(ai: JsValue, env: RenderEnv)
    requires Readable(ai) && !Truthy(ManimCode(ai))
    ensures HandleChat(Some(ai), env) == Exchange([], HttpResponse(200, ChatReply(Explanation(ai), None)))
  {
  }

  /** Code with a scene that the renderer accepts with exit code 0 gives the video URL
      and leaves the explanation untouched. */
  lemma RenderedReply(ai: JsValue, env: RenderEnv)
    requires Readable(ai) && ManimCode(ai).Str? && SceneName(ManimCode(ai).s).Some?
    requires env.exit == Exited(0)
    ensures HandleChat(Some(ai), env).response == HttpResponse(200,
      ChatReply(Explanation(ai), Some(VideoUrl(env.id, OutputBaseName(SceneName(ManimCode(ai).s).value, env.id)))))
  {
    assert Truthy(ManimCode(ai));
  }

  /** The render fails for truthy code that is not text, text without a scene, or any exit other than code 0. */
  predicate RenderFails(ai: JsValue, env: RenderEnv)
    requires Readable(ai)
  {
    Truthy(ManimCode(ai)) && (!ManimCode(ai).Str? || SceneName(ManimCode(ai).s).None? || env.exit != Exited(0))
  }

  /** A failed render is not an error when the explanation has a text form: the reply is
      that text with the apology after it, there is no URL, and the status stays 200. */
  lemma FailedRenderReply(ai: JsValue, env: RenderEnv)
    requires Readable(ai) && RenderFails(ai, env) && ToJsString(Explanation(ai)).Some?
    ensures HandleChat(Some(ai), env).response == HttpResponse(200,
      ChatReply(Str(ToJsString(Explanation(ai)).value + Apology), None))
  {
  }

  /** A failed render with an explanation that has no text form: the `+=` in the inner
      `catch` throws, and the outer `catch` answers 500 after the script was written, run
      and removed. */
  lemma FailedRenderWithoutText(ai: JsValue, env: RenderEnv)
    requires Readable(ai) && RenderFails(ai, env) && ToJsString(Explanation(ai)).None?
    ensures HandleChat(Some(ai), env) ==
      Exchange(RenderManim(ManimCode(ai), env).effects, HttpResponse(500, ErrorReply(AiFailure)))
  {
  }

  /** Asymmetric failure handling, where the apology can be appended: the renderer
      never changes the status. */
  lemma StatusIgnoresRenderer(parsed: Option<JsValue>, env: RenderEnv, env': RenderEnv)
    requires parsed.Some? && Readable(parsed.value) ==> ToJsString(Explanation(parsed.value)).Some?
    ensures HandleChat(parsed, env).response.status == HandleChat(parsed, env').response.status
  {
  }

  /** A textual explanation always reaches the user: the reply begins with it. */
  lemma ExplanationAlwaysDelivered(ai: JsValue, env: RenderEnv)
    requires Readable(ai) && Explanation(ai).Str?
    ensures HandleChat(Some(ai), env).response.status == 200
    ensures HandleChat(Some(ai), env).response.body.reply.Str?
    ensures StartsWith(HandleChat(Some(ai), env).response.body.reply.s, Explanation(ai).s)
  {
    var e := Explanation(ai).s;
    if !Truthy(ManimCode(ai)) {
      NoCodeNoRender(ai, env);
      ConcatStartsAndEnds(e, "");
    } else if ManimCode(ai).Str? && SceneName(ManimCode(ai).s).Some? && env.exit == Exited(0) {
      RenderedReply(ai, env);
      ConcatStartsAndEnds(e, "");
    } else {
      FailedRenderReply(ai, env);
      ConcatStartsAndEnds(e, Apology);
    }
  }

  /** When a requested video is missing and the explanation has a text form, the reply
      ends with the apology. */
  lemma MissingVideoApologises(ai: JsValue, env: RenderEnv)
    requires Readable(ai) && Truthy(ManimCode(ai)) && ToJsString(Explanation(ai)).Some?
    requires HandleChat(Some(ai), env).response.body.ChatReply?
    requires HandleChat(Some(ai), env).response.body.videoUrl.None?
    ensures HandleChat(Some(ai), env).response.body.reply.Str?
    ensures EndsWith(HandleChat(Some(ai), env).response.body.reply.s, Apology)
  {
    FailedRenderReply(ai, env);
    ConcatStartsAndEnds(ToJsString(Explanation(ai)).value, Apology);
  }

  /** A URL in the reply is the rendered video of the declared scene under the request's id. */
  lemma ReplyUrlNamesIdAndScene(ai: JsValue, env: RenderEnv)
    requires Readable(ai) && IsUuidV4(env.id)
    ensures HandleChat(Some(ai), env).response.body.ChatReply? <==> !AppendThrows(ai, env)
    ensures HandleChat(Some(ai), env).response.body.ChatReply? && HandleChat(Some(ai), env).response.body.videoUrl.Some? ==>
      && ManimCode(ai).Str? && SceneName(ManimCode(ai).s).Some? && env.exit == Exited(0)
      && ParseVideoUrl(HandleChat(Some(ai), env).response.body.videoUrl.value)
         == Some((env.id, SceneName(ManimCode(ai).s).value))
  {
    RenderedUrlNamesIdAndScene(ManimCode(ai), env);
  }

  // ---------------------------------------------------------------------------
  // A failed render that becomes a 500
  // ---------------------------------------------------------------------------

  /** With an explanation that has no text form, the renderer decides the status:
      200 when it succeeds, 500 when it fails. */
  lemma RendererDecidesStatus(ai: JsValue, env: RenderEnv)
    requires Readable(ai) && ToJsString(Explanation(ai)).None?
    requires ManimCode(ai).Str? && SceneName(ManimCode(ai).s).Some?
    ensures HandleChat(Some(ai), env.(exit := Exited(0))).response.status == 200
    ensures HandleChat(Some(ai), env.(exit := Exited(1))).response.status == 500
  {
    RenderedReply(ai, env.(exit := Exited(0)));
    FailedRenderWithoutText(ai, env.(exit := Exited(1)));
  }

  const ExampleScene := "class A(Scene):"

  /** `{"explanation": {"toString": 1}, "manim_code": "class A(Scene):"}`. */
  const ExampleAnswer := Obj(map[ExplanationKey := Obj(map[ToStringKey := Num(1)]), CodeKey := Str(ExampleScene)])

  lemma ExampleSceneIsFound()
    ensures SceneName(ExampleScene) == Some("A")
  {
    var s := ExampleScene;
    assert s[6..][..|"A" + SceneBase|] == "A" + SceneBase;
    assert forall t :: |ClassKeyword| <= t < 6 ==> IsWhitespace(s[t]);
    DeclGivesSceneAt(s, 6, "A");
    assert s[0..] == s;
  }

  lemma ExampleAnswerParts()
    ensures Readable(ExampleAnswer)
    ensures ToJsString(Explanation(ExampleAnswer)).None?
    ensures ManimCode(ExampleAnswer) == Str(ExampleScene)
  {
    assert ExplanationKey != CodeKey by {
      assert ExplanationKey[0] != CodeKey[0];
    }
    var e := Obj(map[ToStringKey := Num(1)]);
    assert Explanation(ExampleAnswer) == e;
    assert ToStringKey in e.props;
  }

  /** The concrete answer whose status the renderer flips. */
  lemma ExampleAnswerFlipsStatus(env: RenderEnv)
    ensures HandleChat(Some(ExampleAnswer), env.(exit := Exited(0))).response.status == 200
    ensures HandleChat(Some(ExampleAnswer), env.(exit := Exited(1))).response.status == 500
  {
    ExampleSceneIsFound();
    ExampleAnswerParts();
    RendererDecidesStatus(ExampleAnswer, env);
  }

  /** The evidently intended handler: a failed render only ever adds the apology. Where
      the explanation has no text form, the apology is the whole reply. */
  function HandleChatCorrected(parsed: Option<JsValue>, env: RenderEnv): (x: Exchange)
    ensures x.response.status == 500 <==> parsed.None? || !Readable(parsed.value)
    ensures x.effects == HandleChat(parsed, env).effects
    ensures x.response.status == 500 ==> x.response.body == ErrorReply(AiFailure) && x.effects == []
    ensures x.response.status != 500 ==> x.response.status == 200 && x.response.body.ChatReply?
    ensures parsed.Some? && Readable(parsed.value) && RenderFails(parsed.value, env) ==>
      && x.response.body.reply.Str?
      && EndsWith(x.response.body.reply.s, Apology)
      && x.response.body.videoUrl.None?
  {
    var x := HandleChat(parsed, env);
    if parsed.Some? && Readable(parsed.value) && AppendThrows(parsed.value, env) then
      ConcatStartsAndEnds("", Apology);
      Exchange(x.effects, HttpResponse(200, ChatReply(Str(Apology), None)))
    else if parsed.Some? && Readable(parsed.value) && RenderFails(parsed.value, env) then
      FailedRenderReply(parsed.value, env);
      ConcatStartsAndEnds(ToJsString(Explanation(parsed.value)).value, Apology);
      x
    else x
  }

  /** In the corrected handler, whatever the renderer does, it never changes the status. */
  lemma CorrectedStatusIgnoresRenderer(parsed: Option<JsValue>, env: RenderEnv, env': RenderEnv)
    ensures HandleChatCorrected(parsed, env).response.status == HandleChatCorrected(parsed, env').response.status
  {
  }
}

=== FILE: json.dfy ===
/**
 * The JavaScript values the chat handler reads out of `JSON.parse`: their
 * truthiness (the test `if (x)`), property access, and the text that string
 * conversion gives them (template literals and `+=` on a string).
 */
module Json {
  import opened Base
  import opened JsText

  /** Integral numbers of magnitude at most 2^53: each is a double held exactly, and
      `String(n)` is its plain decimal numeral. */
  type JsInt = n: int | -9_007_199_254_740_992 <= n <= 9_007_199_254_740_992

  /** A value produced by `JSON.parse`, or `Undefined` for a property that is absent.
      An object is a map because `JSON.parse` keeps the last of duplicate keys. */
  datatype JsValue =
    | Undefined
    | Null
    | Bool(b: bool)
    | Num(n: JsInt)
    | Str(s: string)
    | Arr(items: seq<JsValue>)
    | Obj(props: map<string, JsValue>)

  /** What `if (v)` accepts: everything except `undefined`, `null`, `false`, `0` and `""`. */
  predicate Truthy(v: JsValue) {
    match v
    case Undefined => false
    case Null => false
    case Bool(b) => b
    case Num(n) => n != 0
    case Str(s) => s != ""
    case Arr(_) => true
    case Obj(_) => true
  }

  /** `v.key` for a key that no prototype defines: `None` when reading it throws a
      TypeError (on `null` and `undefined`), `Undefined` when it is absent. */
  function GetProperty(v: JsValue, key: string): (r: Option<JsValue>)
    ensures r.None? <==> v == Null || v == Undefined
    ensures v.Obj? && key in v.props ==> r == Some(v.props[key])
    ensures r.Some? && !(v.Obj? && key in v.props) ==> r.value == Undefined
  {
    match v
    case Undefined => None
    case Null => None
    case Obj(props) => Some(if key in props then props[key] else Undefined)
    case _ => Some(Undefined)
  }

  /** The one key through which a parsed object can break string conversion. */
  const ToStringKey := "toString"

  /** The text of `v` in `String(v)`, in a template literal or on either side of a string `+`;
      `None` when the conversion throws a TypeError.
      An object converts through its `toString` method, and `valueOf` hands back the object
      itself, which is no text. An own `toString` key of a parsed object hides the inherited
      method behind a value that cannot be called, so nothing yields text and the conversion
      throws; the order in which `+` tries the two methods does not change this. An array
      converts by `join(",")`, which converts each item that is not `null` or `undefined`. */
  function ToJsString(v: JsValue): (r: Option<string>)
    ensures v.Str? ==> r == Some(v.s)
    ensures v.Obj? ==> (r.None? <==> ToStringKey in v.props)
    ensures v.Arr? ==> (r.None? <==> exists i :: 0 <= i < |v.items| && ToJsString(v.items[i]).None?)
    ensures !v.Obj? && !v.Arr? ==> r.Some?
    decreases v, 1, 0
  {
    match v
    case Undefined => Some("undefined")
    case Null => Some("null")
    case Bool(b) => Some(if b then "true" else "false")
    case Num(n) => Some(IntToString(n))
    case Str(s) => Some(s)
    case Arr(_) => JoinItems(v, 0)
    case Obj(props) => if ToStringKey in props then None else Some("[object Object]")
  }

  /** `Array.prototype.join(",")` from index `from` on: `null` and `undefined` become empty,
      and the first item whose conversion throws makes the whole join throw. */
  function JoinItems(v: JsValue, from: nat): (r: Option<string>)
    requires v.Arr? && from <= |v.items|
    ensures r.None? <==> exists i :: from <= i < |v.items| && ToJsString(v.items[i]).None?
    decreases v, 0, |v.items| - from
  {
    if from == |v.items| then Some("")
    else
      var item := v.items[from];
      var text := if item == Undefined || item == Null then Some("") else ToJsString(item);
      if text.None? then None
      else if from + 1 == |v.items| then text
      else
        var rest := JoinItems(v, from + 1);
        if rest.None? then None else Some(text.value + "," + rest.value)
  }
}

=== FILE: jstext.dfy ===
/**
 * The parts of JavaScript's string semantics that the server relies on:
 * the character classes of its regular expressions, `String.prototype.trim`
 * and `startsWith`, the decimal text a template literal gives an integer,
 * and the text that repeated `+=` accumulates.
 */
module JsText {
  import opened Base

  /** ECMAScript LineTerminator: the characters `.` in a regular expression never matches. */
  predicate IsLineTerminator(c: char) {
    c == '\n' || c == '\r' || c == '\U{2028}' || c == '\U{2029}'
  }

  /** The class `\s` of a regular expression, which is also what `trim` removes:
      WhiteSpace (tab, vertical tab, form feed, the space separators, BOM) and LineTerminator. */
  predicate IsWhitespace(c: char) {
    || c == '\t' || c == '\U{000B}' || c == '\U{000C}' || c == ' ' || c == '\U{00A0}' || c == '\U{1680}'
    || ('\U{2000}' <= c <= '\U{200A}')
    || c == '\U{202F}' || c == '\U{205F}' || c == '\U{3000}' || c == '\U{FEFF}'
    || IsLineTerminator(c)
  }

  /** The class `[a-zA-Z0-9_]`. */
  predicate IsWordChar(c: char) {
    ('a' <= c <= 'z') || ('A' <= c <= 'Z') || ('0' <= c <= '9') || c == '_'
  }

  predicate IsDigit(c: char) {
    '0' <= c <= '9'
  }

  predicate AllWhitespace(s: string) {
    forall k :: 0 <= k < |s| ==> IsWhitespace(s[k])
  }

  predicate AllDigits(s: string) {
    forall k :: 0 <= k < |s| ==> IsDigit(s[k])
  }

  /** `s.startsWith(prefix)`. */
  predicate StartsWith(s: string, prefix: string) {
    |prefix| <= |s| && s[..|prefix|] == prefix
  }

  predicate EndsWith(s: string, suffix: string) {
    |suffix| <= |s| && s[|s| - |suffix|..] == suffix
  }

  lemma ConcatStartsAndEnds(a: string, b: string)
    ensures StartsWith(a + b, a) && EndsWith(a + b, b)
    ensures (a + b)[..|a|] == a && (a + b)[|a|..] == b
  {
    assert (a + b)[..|a|] == a;
    assert (a + b)[|a + b| - |b|..] == b;
  }

  lemma StartsWithSplits(s: string, prefix: string)
    requires StartsWith(s, prefix)
    ensures s == prefix + s[|prefix|..]
  {
    assert s == s[..|prefix|] + s[|prefix|..];
  }

  /** `s.trimStart()`: the longest suffix of `s` that does not begin with white space. */
  function TrimStart(s: string): (r: string)
    ensures |r| <= |s| && r == s[|s| - |r|..]
    ensures AllWhitespace(s[..|s| - |r|])
    ensures r != [] ==> !IsWhitespace(r[0])
    decreases |s|
  {
    if s != [] && IsWhitespace(s[0]) then
      var r := TrimStart(s[1..]);
      assert s[..|s| - |r|] == [s[0]] + s[1..][..|s| - 1 - |r|];
      r
    else s
  }

  /** `s.trimEnd()`: the longest prefix of `s` that does not end with white space. */
  function TrimEnd(s: string): (r: string)
    ensures |r| <= |s| && r == s[..|r|]
    ensures AllWhitespace(s[|r|..])
    ensures r != [] ==> !IsWhitespace(r[|r| - 1])
    decreases |s|
  {
    if s != [] && IsWhitespace(s[|s| - 1]) then
      var r := TrimEnd(s[..|s| - 1]);
      assert s[|r|..] == s[..|s| - 1][|r|..] + [s[|s| - 1]];
      r
    else s
  }

  /** `r` is `s[i..]` up to a white-space tail, after a white-space head `s[..i]`. */
  predicate TrimmedAt(s: string, r: string, i: int) {
    0 <= i <= |s| - |r| && r == s[i..i + |r|] && AllWhitespace(s[..i]) && AllWhitespace(s[i + |r|..])
  }

  lemma SuffixPrefixIsTrimmed(s: string, t: string, r: string)
    requires |t| <= |s| && t == s[|s| - |t|..] && AllWhitespace(s[..|s| - |t|])
    requires |r| <= |t| && r == t[..|r|] && AllWhitespace(t[|r|..])
    ensures TrimmedAt(s, r, |s| - |t|)
  {
    var i := |s| - |t|;
    assert s[i + |r|..] == t[|r|..];
  }

  /** `s.trim()`: `s` without its leading and trailing white space. */
  function Trim(s: string): (r: string)
    ensures exists i :: TrimmedAt(s, r, i)
    ensures r != [] ==> !IsWhitespace(r[0]) && !IsWhitespace(r[|r| - 1])
  {
    var t := TrimStart(s);
    var r := TrimEnd(t);
    SuffixPrefixIsTrimmed(s, t, r);
    r
  }

  /** Trimming keeps everything from the first to the last character that is not
      white space: a text that begins with a non-blank `head` keeps `head` in front. */
  lemma TrimKeepsNonBlankHead(head: string, rest: string)
    requires head != [] && !IsWhitespace(head[0]) && !IsWhitespace(head[|head| - 1])
    ensures StartsWith(Trim(head + rest), head)
  {
    var s := head + rest;
    assert s[0] == head[0];
    assert TrimStart(s) == s;
    var r := TrimEnd(s);
    assert forall k :: |r| <= k < |s| ==> IsWhitespace(s[k]) by {
      forall k | |r| <= k < |s| ensures IsWhitespace(s[k]) {
        assert s[|r|..][k - |r|] == s[k];
      }
    }
    assert !IsWhitespace(s[|head| - 1]);
    assert r[..|head|] == s[..|head|];
  }

  function DigitChar(d: nat): (c: char)
    requires d < 10
    ensures IsDigit(c) && c as int - '0' as int == d
  {
    (d + '0' as int) as char
  }

  /** The decimal numeral of `n`, most significant digit first, without leading zeros. */
  function NatToDecimal(n: nat): (r: string)
    ensures r != [] && AllDigits(r)
    ensures |r| > 1 ==> r[0] != '0'
    decreases n
  {
    if n < 10 then [DigitChar(n)] else NatToDecimal(n / 10) + [DigitChar(n % 10)]
  }

  /** The value of a string of decimal digits (an independent reading of a numeral). */
  function DecimalValue(s: string): nat
    requires AllDigits(s)
  {
    if s == [] then 0
    else DecimalValue(s[..|s| - 1]) * 10 + (s[|s| - 1] as int - '0' as int)
  }

  lemma {:induction false} DecimalRoundTrip(n: nat)
    ensures DecimalValue(NatToDecimal(n)) == n
    decreases n
  {
    if n >= 10 {
      var r := NatToDecimal(n);
      DecimalRoundTrip(n / 10);
      assert r[..|r| - 1] == NatToDecimal(n / 10);
    }
  }

  /** The text `${n}` gives an integer: a minus sign for negative values, then the
      decimal numeral of the magnitude. */
  function IntToString(n: int): string {
    if n < 0 then "-" + NatToDecimal(-n) else NatToDecimal(n)
  }

  /** Reads back an optionally signed decimal numeral; `None` if `s` is not one. */
  function ParseInt(s: string): (r: Option<int>)
    ensures r.Some? ==> s != []
  {
    if s != [] && s[0] == '-' then
      if |s| > 1 && AllDigits(s[1..]) then Some(-(DecimalValue(s[1..]) as int)) else None
    else if s != [] && AllDigits(s) then Some(DecimalValue(s))
    else None
  }

  lemma IntRoundTrip(n: int)
    ensures ParseInt(IntToString(n)) == Some(n)
  {
    if n < 0 {
      DecimalRoundTrip(-n);
      assert ("-" + NatToDecimal(-n))[1..] == NatToDecimal(-n);
    } else {
      DecimalRoundTrip(n);
    }
  }

  /** The text that `acc += chunk` leaves in `acc` after the chunks arrived in order. */
  function Concat(chunks: seq<string>): string {
    if chunks == [] then "" else Concat(chunks[..|chunks| - 1]) + chunks[|chunks| - 1]
  }

  /** Every chunk appears verbatim in the accumulated text, after everything that came before it. */
  lemma {:induction false} ConcatKeepsChunks(chunks: seq<string>, i: nat)
    requires i < |chunks|
    ensures StartsWith(Concat(chunks), Concat(chunks[..i]))
    ensures StartsWith(Concat(chunks)[|Concat(chunks[..i])|..], chunks[i])
    decreases |chunks|
  {
    var n := |chunks| - 1;
    if i < n {
      ConcatKeepsChunks(chunks[..n], i);
      assert chunks[..n][..i] == chunks[..i];
      assert chunks[..n][i] == chunks[i];
    } else {
      assert chunks[..n] == chunks[..i];
    }
  }
}

=== FILE: render.dfy ===
/**
 * `renderManim`: what it does with generated scene code, given what the
 * outside world supplies — the id `uuidv4()` returns, the directory the server
 * runs from, the exit status the renderer reports on `close`, and the chunks
 * it writes to stderr. The file-system and process calls become a trace of
 * effects; the promise becomes the value it settles with.
 */
module Render {
  import opened Base
  import opened JsText
  import opened Rewrite
  import opened Json

  const Preamble := "from manim import *"
  const PreambleSeparator := "\n\n"
  const Renderer := "manim"
  const QualityFlag := "-ql"
  const QualityDir := "480p15"
  const MediaDir := "./public"
  const VideosPrefix := "/videos/"
  const VideoExtension := ".mp4"
  const ScriptExtension := ".py"
  const FailurePrefix := "Manim failed with exit code "
  const FailureSeparator := ". Error: "

  // ---------------------------------------------------------------------------
  // Preparing the script
  // ---------------------------------------------------------------------------

  /** The three textual corrections, applied in order; the last removes every `ShowCreation`. */
  function CorrectCode(code: string): (fixed: string)
    ensures !Contains(fixed, ShowCreation)
  {
    var partly := ReplaceAll(AnimateCall, ReplaceAll(TangentLine, code));
    NoShowCreationLeft(partly);
    FixShowCreation(partly)
  }

  /** Puts the import line in front unless the trimmed code already begins with it. */
  function InjectPreamble(code: string): (r: string)
    ensures StartsWith(Trim(r), Preamble)
    ensures StartsWith(Trim(code), Preamble) ==> r == code
    ensures r == code || r == Preamble + PreambleSeparator + code
    ensures EndsWith(r, code)
  {
    if StartsWith(Trim(code), Preamble) then code
    else
      PreambleInFront(code);
      Preamble + PreambleSeparator + code
  }

  lemma PreambleEndsAreNotBlank()
    ensures Preamble != [] && !IsWhitespace(Preamble[0]) && !IsWhitespace(Preamble[|Preamble| - 1])
  {
  }

  /** The import line put in front survives trimming, and the code stays the tail. */
  lemma PreambleInFront(code: string)
    ensures StartsWith(Trim(Preamble + PreambleSeparator + code), Preamble)
    ensures EndsWith(Preamble + PreambleSeparator + code, code)
  {
    PreambleEndsAreNotBlank();
    TrimKeepsNonBlankHead(Preamble, PreambleSeparator + code);
    assert Preamble + PreambleSeparator + code == Preamble + (PreambleSeparator + code);
    ConcatStartsAndEnds(Preamble + PreambleSeparator, code);
  }

  /** The text written to the script file: the corrected code behind the import line. */
  function PreparedSource(code: string): (source: string)
    ensures EndsWith(source, CorrectCode(code))
    ensures StartsWith(Trim(source), Preamble)
    ensures !Contains(source, ShowCreation)
  {
    var fixed := CorrectCode(code);
    NoShowCreationAfterPreamble(fixed);
    InjectPreamble(fixed)
  }

  /** Injecting the preamble a second time changes nothing. */
  lemma InjectPreambleIdempotent(code: string)
    ensures InjectPreamble(InjectPreamble(code)) == InjectPreamble(code)
  {
  }

  // ---------------------------------------------------------------------------
  // Names derived from the one id
  // ---------------------------------------------------------------------------

  predicate IsLowerHex(c: char) {
    ('0' <= c <= '9') || ('a' <= c <= 'f')
  }

  /** The text `uuidv4()` returns: 8-4-4-4-12 lower-case hex digits, version 4, RFC 4122 variant. */
  predicate IsUuidV4(id: string) {
    && |id| == 36
    && (forall k :: 0 <= k < 36 ==> if k in {8, 13, 18, 23} then id[k] == '-' else IsLowerHex(id[k]))
    && id[14] == '4'
    && id[19] in {'8', '9', 'a', 'b'}
  }

  /** `path.join(__dirname, `${uniqueId}.py`)`. */
  function ScriptPath(serverDir: string, id: string): string {
    serverDir + "/" + id + ScriptExtension
  }

  function OutputBaseName(scene: string, id: string): string {
    scene + "_" + id
  }

  function VideoUrl(id: string, outputName: string): string {
    VideosPrefix + id + "/" + QualityDir + "/" + outputName + VideoExtension
  }

  function RendererArgs(script: string, scene: string, outputName: string): seq<string> {
    [QualityFlag, script, scene, "--media_dir", MediaDir, "-o", outputName]
  }

  predicate NotSlash(c: char) {
    c != '/'
  }

  /** Reads the id and the scene name back out of a video URL. */
  function ParseVideoUrl(url: string): Option<(string, string)> {
    if !StartsWith(url, VideosPrefix) then None
    else
      var rest := url[|VideosPrefix|..];
      var d := SpanEnd(rest, 0, NotSlash);
      var id := rest[..d];
      var dirs := "/" + QualityDir + "/";
      if !StartsWith(rest[d..], dirs) then None
      else
        var file := rest[d + |dirs|..];
        var suffix := "_" + id + VideoExtension;
        if EndsWith(file, suffix) then Some((id, file[..|file| - |suffix|])) else None
  }

  lemma UuidHasNoSlash(id: string)
    requires IsUuidV4(id)
    ensures forall k :: 0 <= k < |id| ==> NotSlash(id[k])
  {
    forall k | 0 <= k < |id| ensures NotSlash(id[k]) {
      if k in {8, 13, 18, 23} {
      } else {
        assert IsLowerHex(id[k]);
      }
    }
  }

  /** How the parser walks a URL: the prefix, a run without `/` for the id, the
      quality directory, and a file name ending in `_<id>.mp4`. */
  lemma ParseVideoUrlSteps(url: string, id: string, dirs: string, file: string, scene: string)
    requires dirs == "/" + QualityDir + "/"
    requires url == VideosPrefix + (id + (dirs + file))
    requires SpanEnd(id + (dirs + file), 0, NotSlash) == |id|
    requires file == scene + ("_" + id + VideoExtension)
    ensures ParseVideoUrl(url) == Some((id, scene))
  {
    var rest := id + (dirs + file);
    var suffix := "_" + id + VideoExtension;
    ConcatStartsAndEnds(VideosPrefix, rest);
    ConcatStartsAndEnds(id, dirs + file);
    ConcatStartsAndEnds(dirs, file);
    ConcatStartsAndEnds(scene, suffix);
    assert rest[|id| + |dirs|..] == file by {
      assert rest[|id|..][|dirs|..] == rest[|id| + |dirs|..];
    }
  }

  /** The URL of a rendered video names both the id and the scene, and both can be read back. */
  lemma VideoUrlRoundTrip(id: string, scene: string)
    requires IsUuidV4(id)
    ensures ParseVideoUrl(VideoUrl(id, OutputBaseName(scene, id))) == Some((id, scene))
  {
    var dirs := "/" + QualityDir + "/";
    var file := scene + ("_" + id + VideoExtension);
    var rest := id + (dirs + file);
    assert VideoUrl(id, OutputBaseName(scene, id)) == VideosPrefix + rest;
    UuidHasNoSlash(id);
    SpanEndUnique(rest, 0, |id|, NotSlash);
    ParseVideoUrlSteps(VideoUrl(id, OutputBaseName(scene, id)), id, dirs, file, scene);
  }

  /** The last path component. */
  function Basename(path: string): (name: string)
    ensures EndsWith(path, name)
  {
    if path == [] || path[|path| - 1] == '/' then []
    else Basename(path[..|path| - 1]) + [path[|path| - 1]]
  }

  /** The renderer's own layout for a video: `<media dir>/videos/<script name
      without .py>/<quality>/<output name>.mp4`, with `480p15` for the `-ql` quality. */
  function RendererVideoPath(mediaDir: string, script: string, quality: string, outputName: string): string {
    var fileName := Basename(script);
    var stem := if EndsWith(fileName, ScriptExtension) then fileName[..|fileName| - |ScriptExtension|] else fileName;
    var qualityDir := if quality == QualityFlag then QualityDir else quality;
    mediaDir + VideosPrefix + stem + "/" + qualityDir + "/" + outputName + VideoExtension
  }

  lemma {:induction false} BasenameOfSlashFree(dir: string, name: string)
    requires forall k :: 0 <= k < |name| ==> NotSlash(name[k])
    ensures Basename(dir + "/" + name) == name
    decreases |name|
  {
    if name == [] {
    } else {
      var p := dir + "/" + name;
      assert p[..|p| - 1] == dir + "/" + name[..|name| - 1];
      BasenameOfSlashFree(dir, name[..|name| - 1]);
    }
  }

  /** The URL handed to the client, served from the media directory, is exactly the file
      the renderer writes for the script `<id>.py` and the output name `<scene>_<id>`. */
  lemma VideoUrlIsRendererOutput(serverDir: string, id: string, scene: string)
    requires IsUuidV4(id)
    ensures MediaDir + VideoUrl(id, OutputBaseName(scene, id))
         == RendererVideoPath(MediaDir, ScriptPath(serverDir, id), QualityFlag, OutputBaseName(scene, id))
  {
    var name := id + ScriptExtension;
    UuidHasNoSlash(id);
    forall k | 0 <= k < |name| ensures NotSlash(name[k]) {
      if k >= |id| {
        assert name[k] == ScriptExtension[k - |id|];
      } else {
        assert name[k] == id[k];
      }
    }
    assert ScriptPath(serverDir, id) == serverDir + "/" + name;
    BasenameOfSlashFree(serverDir, name);
    assert name[..|name| - |ScriptExtension|] == id;
  }

  // ---------------------------------------------------------------------------
  // The renderer's verdict
  // ---------------------------------------------------------------------------

  /** The code the `close` event reports: a number, or `null` when a signal ended the process. */
  datatype ExitStatus = Exited(code: int) | Signalled

  /** `${code}` for the reported code. */
  function ExitText(exit: ExitStatus): string {
    match exit
    case Exited(n) => IntToString(n)
    case Signalled => "null"
  }

  function FailureMessage(exit: ExitStatus, stderr: string): string {
    FailurePrefix + ExitText(exit) + FailureSeparator + stderr
  }

  predicate NotDot(c: char) {
    c != '.'
  }

  /** Reads the exit status and the stderr text back out of a failure message. */
  function ParseFailureMessage(message: string): Option<(ExitStatus, string)> {
    if !StartsWith(message, FailurePrefix) then None
    else
      var rest := message[|FailurePrefix|..];
      var d := SpanEnd(rest, 0, NotDot);
      var codeText := rest[..d];
      if !StartsWith(rest[d..], FailureSeparator) then None
      else
        var stderr := rest[d + |FailureSeparator|..];
        if codeText == "null" then Some((Signalled, stderr))
        else match ParseInt(codeText)
          case Some(n) => Some((Exited(n), stderr))
          case None => None
  }

  lemma ExitTextHasNoDot(exit: ExitStatus)
    ensures forall k :: 0 <= k < |ExitText(exit)| ==> NotDot(ExitText(exit)[k])
    ensures exit.Exited? ==> ExitText(exit) != "null"
  {
    if exit.Exited? {
      var n := exit.code;
      var t := ExitText(exit);
      var digits := NatToDecimal(if n < 0 then -n else n);
      if n < 0 {
        assert t == "-" + digits;
        assert t[0] == '-';
        forall k | 0 < k < |t| ensures NotDot(t[k]) {
          assert t[k] == digits[k - 1];
        }
      } else {
        assert t == digits;
        assert IsDigit(t[0]);
      }
      assert "null"[0] == 'n';
    }
  }

  /** A failure message carries the exit status and the complete stderr text, recoverably. */
  lemma FailureMessageRoundTrip(exit: ExitStatus, stderr: string)
    ensures ParseFailureMessage(FailureMessage(exit, stderr)) == Some((exit, stderr))
  {
    var code := ExitText(exit);
    var message := FailureMessage(exit, stderr);
    var rest := message[|FailurePrefix|..];
    assert rest == code + (FailureSeparator + stderr);
    ExitTextHasNoDot(exit);
    SpanEndUnique(rest, 0, |code|, NotDot);
    assert rest[..|code|] == code;
    assert rest[|code|..] == FailureSeparator + stderr;
    assert rest[|code| + |FailureSeparator|..] == stderr;
    if exit.Exited? {
      IntRoundTrip(exit.code);
    }
  }

  /** The stderr listener: `stderr += data.toString()` for each chunk, in arrival order. */
  method CollectStderr(chunks: seq<string>) returns (stderr: string)
    ensures stderr == Concat(chunks)
  {
    stderr := "";
    var i := 0;
    while i < |chunks|
      invariant 0 <= i <= |chunks|
      invariant stderr == Concat(chunks[..i])
    {
      assert chunks[..i + 1][..i] == chunks[..i];
      stderr := stderr + chunks[i];
      i := i + 1;
    }
    assert chunks[..i] == chunks;
  }

  // ---------------------------------------------------------------------------
  // renderManim
  // ---------------------------------------------------------------------------

  /** What the outside world decides about one render. */
  datatype RenderEnv = RenderEnv(serverDir: string, id: string, exit: ExitStatus, stderrChunks: seq<string>)

  datatype Effect =
    | WriteFile(path: string, contents: string)
    | Spawn(program: string, args: seq<string>)
    | Unlink(path: string)

  /** Why the promise rejects. `NoScene`: "No valid Manim scene found in code.";
      `CodeNotText`: `code.match` is not a function. */
  datatype RenderError = NoScene | CodeNotText | RendererFailed(message: string)

  datatype Settled = Resolved(url: string) | Rejected(error: RenderError)

  datatype RenderRun = RenderRun(effects: seq<Effect>, outcome: Settled)

  /** The script is written, run and removed again, whatever the renderer reports. */
  predicate ScriptLifecycle(effects: seq<Effect>, script: string, scene: string, outputName: string) {
    && |effects| == 3
    && effects[0].WriteFile? && effects[0].path == script
    && effects[1] == Spawn(Renderer, RendererArgs(script, scene, outputName))
    && effects[2] == Unlink(script)
  }

  /** `renderManim(code)` for whatever value `manim_code` held. */
  function RenderManim(code: JsValue, env: RenderEnv): (run: RenderRun)
    ensures run.effects == [] <==> !code.Str? || SceneName(code.s).None?
    ensures code.Str? && SceneName(code.s).None? ==> run.outcome == Rejected(NoScene)
    ensures run.effects != [] ==>
      && ScriptLifecycle(run.effects, ScriptPath(env.serverDir, env.id), SceneName(code.s).value,
                      OutputBaseName(SceneName(code.s).value, env.id))
      && run.effects[0].contents == PreparedSource(code.s)
      && StartsWith(Trim(run.effects[0].contents), Preamble)
      && !Contains(run.effects[0].contents, ShowCreation)
    ensures run.outcome.Resolved? <==> run.effects != [] && env.exit == Exited(0)
    ensures run.outcome.Resolved? ==> run.outcome.url == VideoUrl(env.id, OutputBaseName(SceneName(code.s).value, env.id))
    ensures run.effects != [] && env.exit != Exited(0) ==>
      run.outcome.Rejected? && run.outcome.error.RendererFailed?
    ensures run.outcome.Rejected? && run.outcome.error.RendererFailed? ==>
      && run.effects != [] && env.exit != Exited(0)
      && ParseFailureMessage(run.outcome.error.message) == Some((env.exit, Concat(env.stderrChunks)))
  {
    if !code.Str? then RenderRun([], Rejected(CodeNotText))
    else
      match SceneName(code.s)
      case None => RenderRun([], Rejected(NoScene))
      case Some(scene) => RenderScene(code.s, scene, env)
  }

  /** Writing the script, spawning the renderer on it, and unlinking it on `close`. */
  function ScriptEffects(script: string, scene: string, outputName: string, source: string): (effects: seq<Effect>)
    ensures ScriptLifecycle(effects, script, scene, outputName)
    ensures effects[0].contents == source
  {
    [WriteFile(script, source), Spawn(Renderer, RendererArgs(script, scene, outputName)), Unlink(script)]
  }

  /** The `close` handler's verdict: the video URL for exit code 0, otherwise an error
      whose message carries the reported code and everything read from stderr. */
  function SettleOnClose(id: string, outputName: string, exit: ExitStatus, stderr: string): (outcome: Settled)
    ensures outcome.Resolved? <==> exit == Exited(0)
    ensures outcome.Resolved? ==> outcome.url == VideoUrl(id, outputName)
    ensures outcome.Rejected? ==>
      && outcome.error.RendererFailed?
      && ParseFailureMessage(outcome.error.message) == Some((exit, stderr))
  {
    if exit == Exited(0) then Resolved(VideoUrl(id, outputName))
    else
      FailureMessageRoundTrip(exit, stderr);
      Rejected(RendererFailed(FailureMessage(exit, stderr)))
  }

  /** The part of `renderManim` after a scene name was found. */
  function RenderScene(code: string, scene: string, env: RenderEnv): (run: RenderRun)
    ensures ScriptLifecycle(run.effects, ScriptPath(env.serverDir, env.id), scene, OutputBaseName(scene, env.id))
    ensures run.effects[0].contents == PreparedSource(code)
    ensures run.outcome.Resolved? <==> env.exit == Exited(0)
    ensures run.outcome.Resolved? ==> run.outcome.url == VideoUrl(env.id, OutputBaseName(scene, env.id))
    ensures run.outcome.Rejected? ==>
      && run.outcome.error.RendererFailed?
      && ParseFailureMessage(run.outcome.error.message) == Some((env.exit, Concat(env.stderrChunks)))
  {
    var script := ScriptPath(env.serverDir, env.id);
    var outputName := OutputBaseName(scene, env.id);
    RenderRun(ScriptEffects(script, scene, outputName, PreparedSource(code)),
              SettleOnClose(env.id, outputName, env.exit, Concat(env.stderrChunks)))
  }

  lemma PreambleLineHasNoS()
    ensures forall k :: 0 <= k < |Preamble + PreambleSeparator| ==> (Preamble + PreambleSeparator)[k] != ShowCreation[0]
  {
  }

  /** The import line cannot bring `ShowCreation` back. */
  lemma NoShowCreationAfterPreamble(code: string)
    requires !Contains(code, ShowCreation)
    ensures !Contains(InjectPreamble(code), ShowCreation)
  {
    if !StartsWith(Trim(code), Preamble) {
      var head := Preamble + PreambleSeparator;
      assert InjectPreamble(code) == head + code;
      PreambleLineHasNoS();
      NoOccurrenceStartsInHead(head, code, ShowCreation);
      OccurrenceInHeadOrTail(head, code, ShowCreation);
    }
  }

  /** The URL of a successful render names the id and the scene the code declares. */
  lemma RenderedUrlNamesIdAndScene(code: JsValue, env: RenderEnv)
    requires IsUuidV4(env.id)
    ensures RenderManim(code, env).outcome.Resolved? ==>
      ParseVideoUrl(RenderManim(code, env).outcome.url) == Some((env.id, SceneName(code.s).value))
  {
    if RenderManim(code, env).outcome.Resolved? {
      VideoUrlRoundTrip(env.id, SceneName(code.s).value);
    }
  }

  /** What is written, run and removed does not depend on how the renderer ends. */
  lemma EffectsIgnoreRendererVerdict(code: JsValue, env: RenderEnv, exit: ExitStatus, chunks: seq<string>)
    ensures RenderManim(code, env).effects == RenderManim(code, env.(exit := exit, stderrChunks := chunks)).effects
  {
  }
}

=== FILE: rewrite.dfy ===
/**
 * The regular expressions of `renderManim`, each written out as the
 * deterministic scanner it amounts to, and the global
 * `String.prototype.replace` that applies a rewriting rule everywhere.
 *
 * Every function here looks at a suffix of the text: none of the patterns has
 * an anchor, a look-behind or a word boundary, so whether a pattern matches at
 * index i of a text depends only on the text from i onwards.
 */
module Rewrite {
  import opened Base
  import opened JsText

  /** The end of the maximal run of characters satisfying `p` that starts at `k`. */
  function SpanEnd(s: string, k: nat, p: char -> bool): (e: nat)
    requires k <= |s|
    ensures k <= e <= |s|
    ensures forall j :: k <= j < e ==> p(s[j])
    ensures e < |s| ==> !p(s[e])
    decreases |s| - k
  {
    if k < |s| && p(s[k]) then SpanEnd(s, k + 1, p) else k
  }

  /** A run is fixed by where it starts and by the first character that stops it. */
  lemma {:induction false} SpanEndUnique(s: string, k: nat, e: nat, p: char -> bool)
    requires k <= e <= |s|
    requires forall j :: k <= j < e ==> p(s[j])
    requires e < |s| ==> !p(s[e])
    ensures SpanEnd(s, k, p) == e
    decreases e - k
  {
    if k < e {
      SpanEndUnique(s, k + 1, e, p);
    }
  }

  // ---------------------------------------------------------------------------
  // Rewriting rules and global replacement
  // ---------------------------------------------------------------------------

  /** A match at the start of a text: how many characters it consumes and what replaces them. */
  datatype Match = Match(len: nat, replacement: string)

  /** The three rewrites applied to generated scene code, in the form `text.replace(regex, replacement)`. */
  datatype Rule =
      /** `/axes\.get_tangent_line\(\s*([a-zA-Z0-9_]+)\s*,.+?\)/gi` to `"axes.get_derivative_graph($1)"` */
    | TangentLine
      /** `/Animate\((.*?)\)/g` to `"$1.animate"` */
    | AnimateCall
      /** `/pat/g` to `rep`, for a pattern made of ordinary characters only */
    | Literal(pat: string, rep: string)

  const TangentHead := "axes.get_tangent_line("
  const DerivativeHead := "axes.get_derivative_graph("
  const AnimateHead := "Animate("
  const AnimateTail := ".animate"

  /** Case folding of a regular expression with the `i` flag and without `u`,
      restricted to what can equal an ASCII pattern character: ASCII letters only. */
  function FoldAscii(c: char): char {
    if 'a' <= c <= 'z' then (c as int - 32) as char else c
  }

  predicate EqualsIgnoreCase(a: string, b: string) {
    |a| == |b| && forall k :: 0 <= k < |a| ==> FoldAscii(a[k]) == FoldAscii(b[k])
  }

  /** What `.` may consume on the way to the closing `\)` of a lazy `.*?\)`. */
  predicate NotCloseOrEol(c: char) {
    c != ')' && !IsLineTerminator(c)
  }

  predicate ValidRule(rule: Rule) {
    rule.Literal? ==> rule.pat != []
  }

  /** `/Animate\((.*?)\)/` at the start of `s`: the argument up to the first `)` on the line becomes `$1.animate`. */
  function AnimateMatch(s: string): (m: Option<Match>)
    ensures m.Some? ==> 0 < m.value.len <= |s|
  {
    if !StartsWith(s, AnimateHead) then None
    else
      var j := SpanEnd(s, |AnimateHead|, NotCloseOrEol);
      if j < |s| && s[j] == ')' then Some(Match(j + 1, s[|AnimateHead|..j] + AnimateTail)) else None
  }

  /** `/axes\.get_tangent_line\(\s*([a-zA-Z0-9_]+)\s*,.+?\)/i` at the start of `s`: the call becomes
      `axes.get_derivative_graph($1)`. The greedy word run must be followed by white space and a
      comma, so no shorter run can match instead; `.+?` needs one character and then stops at
      the first `)` on the line. */
  function TangentMatch(s: string): (m: Option<Match>)
    ensures m.Some? ==> 0 < m.value.len <= |s|
  {
    if !(|TangentHead| <= |s| && EqualsIgnoreCase(s[..|TangentHead|], TangentHead)) then None
    else
      var k := SpanEnd(s, |TangentHead|, IsWhitespace);
      var e := SpanEnd(s, k, IsWordChar);
      var c := SpanEnd(s, e, IsWhitespace);
      if e == k || c == |s| || s[c] != ',' || c + 1 == |s| || IsLineTerminator(s[c + 1]) then None
      else
        var j := SpanEnd(s, c + 2, NotCloseOrEol);
        if j < |s| && s[j] == ')' then Some(Match(j + 1, DerivativeHead + s[k..e] + ")")) else None
  }

  /** Whether `rule` matches at the start of `s`, and with what. */
  function MatchAt(rule: Rule, s: string): (m: Option<Match>)
    requires ValidRule(rule)
    ensures m.Some? ==> 0 < m.value.len <= |s|
  {
    match rule
    case Literal(pat, rep) =>
      if StartsWith(s, pat) then Some(Match(|pat|, rep)) else None
    case AnimateCall => AnimateMatch(s)
    case TangentLine => TangentMatch(s)
  }

  /** `s.replace(regex, replacement)` with the `g` flag: scan left to right, replace
      each match and resume after it, copy every other character unchanged. */
  function ReplaceAll(rule: Rule, s: string): (r: string)
    requires ValidRule(rule)
    ensures |s| > 0 && MatchAt(rule, s).None? ==> r != [] && r[0] == s[0]
    decreases |s|
  {
    if s == [] then []
    else
      match MatchAt(rule, s)
      case Some(m) => m.replacement + ReplaceAll(rule, s[m.len..])
      case None => [s[0]] + ReplaceAll(rule, s[1..])
  }

  /** Where the rule does not match, one character is copied and the scan moves on. */
  lemma CopyStep(rule: Rule, s: string)
    requires ValidRule(rule) && s != [] && MatchAt(rule, s).None?
    ensures ReplaceAll(rule, s) == [s[0]] + ReplaceAll(rule, s[1..])
  {
  }

  /** A literal replacement takes one step: the replacement text, or one copied character. */
  lemma LiteralStep(pat: string, rep: string, s: string)
    requires pat != [] && s != []
    ensures StartsWith(s, pat) ==> ReplaceAll(Literal(pat, rep), s) == rep + ReplaceAll(Literal(pat, rep), s[|pat|..])
    ensures !StartsWith(s, pat) ==> ReplaceAll(Literal(pat, rep), s) == [s[0]] + ReplaceAll(Literal(pat, rep), s[1..])
  {
  }

  /** Where the rule matches nowhere, the replacement leaves the text as it is. */
  lemma {:induction false} ReplaceWithoutMatch(rule: Rule, s: string)
    requires ValidRule(rule)
    requires forall j :: 0 <= j < |s| ==> MatchAt(rule, s[j..]).None?
    ensures ReplaceAll(rule, s) == s
    decreases |s|
  {
    if s != [] {
      assert s[0..] == s;
      CopyStep(rule, s);
      forall j | 0 <= j < |s| - 1 ensures MatchAt(rule, s[1..][j..]).None? {
        assert s[1..][j..] == s[j + 1..];
      }
      ReplaceWithoutMatch(rule, s[1..]);
      assert [s[0]] + s[1..] == s;
    }
  }

  // ---------------------------------------------------------------------------
  // The `Animate(...)` rule
  // ---------------------------------------------------------------------------

  /** `s` begins with `Animate(`, and `s[j]` is the first `)` after it, on the same line. */
  predicate AnimateShape(s: string, j: int) {
    && StartsWith(s, AnimateHead)
    && |AnimateHead| <= j < |s|
    && s[j] == ')'
    && forall t :: |AnimateHead| <= t < j ==> NotCloseOrEol(s[t])
  }

  /** The `Animate(x)` rule matches exactly the texts of that shape and turns `Animate(x)` into `x.animate`. */
  lemma AnimateCallMatches(s: string)
    ensures AnimateMatch(s).Some? ==> AnimateShape(s, AnimateMatch(s).value.len - 1)
    ensures forall j :: AnimateShape(s, j) ==>
      AnimateMatch(s) == Some(Match(j + 1, s[|AnimateHead|..j] + AnimateTail))
  {
    forall j | AnimateShape(s, j)
      ensures AnimateMatch(s) == Some(Match(j + 1, s[|AnimateHead|..j] + AnimateTail))
    {
      SpanEndUnique(s, |AnimateHead|, j, NotCloseOrEol);
    }
  }

  // ---------------------------------------------------------------------------
  // The `axes.get_tangent_line(...)` rule
  // ---------------------------------------------------------------------------

  /** `s` begins with `axes.get_tangent_line(` in any letter case, then white space up
      to `k`, the argument name in `s[k..e]`, white space up to the comma at `c`, at
      least one more character on the line, and the first `)` after that at `j`. */
  predicate TangentShape(s: string, k: int, e: int, c: int, j: int) {
    && |TangentHead| <= k < e <= c && c + 2 <= j < |s|
    && EqualsIgnoreCase(s[..|TangentHead|], TangentHead)
    && (forall t :: |TangentHead| <= t < k ==> IsWhitespace(s[t]))
    && (forall t :: k <= t < e ==> IsWordChar(s[t]))
    && (forall t :: e <= t < c ==> IsWhitespace(s[t]))
    && s[c] == ','
    && !IsLineTerminator(s[c + 1])
    && (forall t :: c + 2 <= t < j ==> NotCloseOrEol(s[t]))
    && s[j] == ')'
  }

  /** Every text of the tangent-line shape is matched, and the whole call is rewritten
      to `axes.get_derivative_graph(<argument name>)`. */
  lemma TangentLineMatchesShape(s: string, k: int, e: int, c: int, j: int)
    requires TangentShape(s, k, e, c, j)
    ensures TangentMatch(s) == Some(Match(j + 1, DerivativeHead + s[k..e] + ")"))
  {
    assert IsWordChar(s[k]) && !IsWhitespace(s[k]);
    SpanEndUnique(s, |TangentHead|, k, IsWhitespace);
    assert !IsWordChar(s[e]);
    SpanEndUnique(s, k, e, IsWordChar);
    SpanEndUnique(s, e, c, IsWhitespace);
    SpanEndUnique(s, c + 2, j, NotCloseOrEol);
    TangentMatchFromRuns(s, k, e, c, j);
  }

  /** The tangent-line scanner, given where each of its runs ends. */
  lemma TangentMatchFromRuns(s: string, k: int, e: int, c: int, j: int)
    requires TangentShape(s, k, e, c, j)
    requires SpanEnd(s, |TangentHead|, IsWhitespace) == k && SpanEnd(s, k, IsWordChar) == e
    requires SpanEnd(s, e, IsWhitespace) == c && SpanEnd(s, c + 2, NotCloseOrEol) == j
    ensures TangentMatch(s) == Some(Match(j + 1, DerivativeHead + s[k..e] + ")"))
  {
  }

  /** The tangent-line rule matches only texts of that shape. */
  lemma TangentLineMatchHasShape(s: string)
    ensures TangentMatch(s).Some? ==>
      exists k, e, c, j :: TangentShape(s, k, e, c, j)
        && TangentMatch(s) == Some(Match(j + 1, DerivativeHead + s[k..e] + ")"))
  {
    if TangentMatch(s).Some? {
      var k := SpanEnd(s, |TangentHead|, IsWhitespace);
      var e := SpanEnd(s, k, IsWordChar);
      var c := SpanEnd(s, e, IsWhitespace);
      var j := SpanEnd(s, c + 2, NotCloseOrEol);
      assert TangentShape(s, k, e, c, j);
    }
  }

  // ---------------------------------------------------------------------------
  // Literal rules: replacement as cutting at the pattern and re-joining
  // ---------------------------------------------------------------------------

  predicate OccursAt(s: string, pat: string, j: int) {
    0 <= j && j + |pat| <= |s| && s[j..j + |pat|] == pat
  }

  lemma OccurrenceStartsWithHead(s: string, pat: string, j: int)
    requires pat != [] && OccursAt(s, pat, j)
    ensures s[j] == pat[0]
  {
    assert s[j..j + |pat|][0] == s[j];
  }

  /** An occurrence that lies past `a` in `a + b` is an occurrence in `b`. */
  lemma OccurrenceInSuffix(a: string, b: string, pat: string, j: int)
    requires OccursAt(a + b, pat, j) && j >= |a|
    ensures OccursAt(b, pat, j - |a|)
  {
    assert (a + b)[j..j + |pat|] == b[j - |a|..j - |a| + |pat|];
  }

  predicate Contains(s: string, pat: string) {
    exists j :: 0 <= j <= |s| && OccursAt(s, pat, j)
  }

  /** `parts.join(sep)`. */
  function Join(parts: seq<string>, sep: string): string
    requires parts != []
  {
    if |parts| == 1 then parts[0] else parts[0] + sep + Join(parts[1..], sep)
  }

  /** `s.split(pat)`: the pieces between the occurrences of `pat`, found left to right. */
  function Split(s: string, pat: string): (parts: seq<string>)
    requires pat != []
    ensures parts != []
    decreases |s|
  {
    if s == [] then [""]
    else if StartsWith(s, pat) then [""] + Split(s[|pat|..], pat)
    else
      var t := Split(s[1..], pat);
      [[s[0]] + t[0]] + t[1..]
  }

  lemma JoinExtendsHead(c: char, t: seq<string>, sep: string)
    requires t != []
    ensures Join([[c] + t[0]] + t[1..], sep) == [c] + Join(t, sep)
  {
    var parts := [[c] + t[0]] + t[1..];
    if |t| > 1 {
      assert parts[1..] == t[1..];
    }
  }

  /** Splitting loses nothing: joining the pieces with the pattern gives back the text. */
  lemma {:induction false} SplitJoin(s: string, pat: string)
    requires pat != []
    ensures Join(Split(s, pat), pat) == s
    decreases |s|
  {
    if s == [] {
    } else if StartsWith(s, pat) {
      var rest := s[|pat|..];
      var t := Split(rest, pat);
      assert Split(s, pat) == [""] + t;
      assert ([""] + t)[1..] == t;
      assert Join([""] + t, pat) == "" + pat + Join(t, pat);
      SplitJoin(rest, pat);
      StartsWithSplits(s, pat);
      assert "" + pat + rest == pat + rest;
    } else {
      var t := Split(s[1..], pat);
      assert Split(s, pat) == [[s[0]] + t[0]] + t[1..];
      SplitJoin(s[1..], pat);
      JoinExtendsHead(s[0], t, pat);
      assert s == [s[0]] + s[1..];
    }
  }

  /** Replacing a literal everywhere is splitting at it and joining with the replacement. */
  lemma {:induction false} ReplaceIsSplitJoin(s: string, pat: string, rep: string)
    requires pat != []
    ensures ReplaceAll(Literal(pat, rep), s) == Join(Split(s, pat), rep)
    decreases |s|
  {
    if s == [] {
    } else if StartsWith(s, pat) {
      var rest := s[|pat|..];
      var t := Split(rest, pat);
      LiteralStep(pat, rep, s);
      assert Split(s, pat) == [""] + t;
      assert ([""] + t)[1..] == t;
      assert Join([""] + t, rep) == "" + rep + Join(t, rep);
      ReplaceIsSplitJoin(rest, pat, rep);
    } else {
      var t := Split(s[1..], pat);
      LiteralStep(pat, rep, s);
      assert Split(s, pat) == [[s[0]] + t[0]] + t[1..];
      ReplaceIsSplitJoin(s[1..], pat, rep);
      JoinExtendsHead(s[0], t, rep);
    }
  }

  /** No piece of a split contains the pattern, and the first piece is where the text begins. */
  lemma {:induction false} SplitPiecesAreFree(s: string, pat: string)
    requires pat != []
    ensures StartsWith(s, Split(s, pat)[0])
    ensures forall i :: 0 <= i < |Split(s, pat)| ==> !Contains(Split(s, pat)[i], pat)
    decreases |s|
  {
    var parts := Split(s, pat);
    if s == [] {
      assert parts == [""];
      assert forall j :: !OccursAt("", pat, j);
    } else if StartsWith(s, pat) {
      SplitPiecesAreFree(s[|pat|..], pat);
      var t := Split(s[|pat|..], pat);
      assert parts == [""] + t;
      assert forall j :: !OccursAt("", pat, j);
      assert forall i :: 1 <= i < |parts| ==> parts[i] == t[i - 1];
    } else {
      SplitPiecesAreFree(s[1..], pat);
      var t := Split(s[1..], pat);
      var head := [s[0]] + t[0];
      assert parts == [head] + t[1..];
      assert StartsWith(s, head) by {
        assert s[1..][..|t[0]|] == t[0];
        assert s[..|head|] == [s[0]] + s[1..][..|t[0]|];
      }
      forall j | OccursAt(head, pat, j) ensures false {
        if j == 0 {
          assert false;
        } else {
          assert head[j..j + |pat|] == t[0][j - 1..j - 1 + |pat|];
          assert OccursAt(t[0], pat, j - 1);
        }
      }
      assert forall i :: 1 <= i < |parts| ==> parts[i] == t[i];
    }
  }

  // ---------------------------------------------------------------------------
  // After `ShowCreation` is replaced by `Create`, none is left
  // ---------------------------------------------------------------------------

  /** One of the two texts is a prefix of the other. */
  predicate Compatible(a: string, b: string) {
    StartsWith(a, b) || StartsWith(b, a)
  }

  lemma CommonPrefixesCompatible(s: string, a: string, b: string)
    requires StartsWith(s, a) && StartsWith(s, b)
    ensures Compatible(a, b)
  {
    if |a| <= |b| {
      assert b[..|a|] == s[..|a|];
    } else {
      assert a[..|b|] == s[..|b|];
    }
  }

  /** If the output of a literal replacement begins with `w`, and no suffix of `w` can
      line up with the replacement text, then no replacement happened inside `w`:
      the input begins with `w` too. */
  lemma {:induction false} ReplacedPrefix(pat: string, rep: string, s: string, w: string)
    requires pat != []
    requires StartsWith(ReplaceAll(Literal(pat, rep), s), w)
    requires forall k :: 0 <= k < |w| ==> !Compatible(w[k..], rep)
    ensures StartsWith(s, w)
    decreases |s|
  {
    var out := ReplaceAll(Literal(pat, rep), s);
    if w == [] || s == [] {
    } else if StartsWith(s, pat) {
      CommonPrefixesCompatible(out, w[0..], rep);
      assert false;
    } else {
      var rest := ReplaceAll(Literal(pat, rep), s[1..]);
      assert out == [s[0]] + rest;
      assert StartsWith(rest, w[1..]) by {
        assert rest[..|w| - 1] == out[1..|w|];
      }
      forall k | 0 <= k < |w[1..]| ensures !Compatible(w[1..][k..], rep) {
        assert w[1..][k..] == w[k + 1..];
      }
      ReplacedPrefix(pat, rep, s[1..], w[1..]);
      assert s[..|w|] == [s[0]] + s[1..][..|w| - 1];
    }
  }

  const ShowCreation := "ShowCreation"
  const Create := "Create"

  /** `.replace(/ShowCreation/g, "Create")`. */
  function FixShowCreation(s: string): string {
    ReplaceAll(Literal(ShowCreation, Create), s)
  }

  lemma HowCreationCannotAlignWithCreate()
    ensures forall k :: 0 <= k < |ShowCreation[1..]| ==> !Compatible(ShowCreation[1..][k..], Create)
  {
    var w := ShowCreation[1..];
    forall k | 0 <= k < |w| ensures !Compatible(w[k..], Create) {
      if k == 3 {
        assert w[k..][5] != Create[5];
      } else {
        assert w[k..][0] != Create[0];
      }
    }
  }

  /** An occurrence in `a + b` starts inside `a` or lies entirely in `b`. */
  lemma OccurrenceInHeadOrTail(a: string, b: string, pat: string)
    requires !Contains(b, pat)
    requires forall j :: 0 <= j < |a| ==> !OccursAt(a + b, pat, j)
    ensures !Contains(a + b, pat)
  {
    forall j | 0 <= j <= |a + b| && OccursAt(a + b, pat, j) ensures false {
      if j >= |a| {
        OccurrenceInSuffix(a, b, pat, j);
      }
    }
  }

  /** No occurrence can start inside a head that lacks the pattern's first character. */
  lemma NoOccurrenceStartsInHead(a: string, b: string, pat: string)
    requires pat != [] && forall k :: 0 <= k < |a| ==> a[k] != pat[0]
    ensures forall j :: 0 <= j < |a| ==> !OccursAt(a + b, pat, j)
  {
    forall j | 0 <= j < |a| && OccursAt(a + b, pat, j) ensures false {
      OccurrenceStartsWithHead(a + b, pat, j);
      assert false;
    }
  }

  /** A character copied in front of the fixed rest cannot start a new `ShowCreation`. */
  lemma NoShowCreationAtCopy(s: string)
    requires s != [] && !StartsWith(s, ShowCreation)
    ensures !OccursAt([s[0]] + FixShowCreation(s[1..]), ShowCreation, 0)
  {
    var t := FixShowCreation(s[1..]);
    var out := [s[0]] + t;
    if OccursAt(out, ShowCreation, 0) {
      assert StartsWith(t, ShowCreation[1..]) by {
        assert t[..|ShowCreation| - 1] == out[1..|ShowCreation|];
      }
      assert s[0] == ShowCreation[0] by {
        assert out[..|ShowCreation|][0] == out[0];
      }
      StartsWithHeadAndTail(s, ShowCreation);
      HowCreationCannotAlignWithCreate();
      ReplacedPrefix(ShowCreation, Create, s[1..], ShowCreation[1..]);
      assert false;
    }
  }

  lemma StartsWithHeadAndTail(s: string, p: string)
    ensures s != [] && p != [] && s[0] == p[0] && StartsWith(s[1..], p[1..]) ==> StartsWith(s, p)
  {
    if s != [] && p != [] && s[0] == p[0] && StartsWith(s[1..], p[1..]) {
      assert s[..|p|] == [s[0]] + s[1..][..|p| - 1];
    }
  }

  /** The deprecated `ShowCreation` cannot survive the fix-up, not even by the
      replacement text meeting its surroundings. */
  lemma {:induction false} NoShowCreationLeft(s: string)
    ensures !Contains(FixShowCreation(s), ShowCreation)
    decreases |s|
  {
    if s == [] {
      assert forall j :: !OccursAt([], ShowCreation, j);
    } else if StartsWith(s, ShowCreation) {
      var t := FixShowCreation(s[|ShowCreation|..]);
      LiteralStep(ShowCreation, Create, s);
      NoShowCreationLeft(s[|ShowCreation|..]);
      NoOccurrenceStartsInHead(Create, t, ShowCreation);
      OccurrenceInHeadOrTail(Create, t, ShowCreation);
    } else {
      var t := FixShowCreation(s[1..]);
      LiteralStep(ShowCreation, Create, s);
      NoShowCreationLeft(s[1..]);
      NoShowCreationAtCopy(s);
      OccurrenceInHeadOrTail([s[0]], t, ShowCreation);
    }
  }

  // ---------------------------------------------------------------------------
  // The scene declaration `/class\s+([a-zA-Z0-9_]+)\(Scene\):/`
  // ---------------------------------------------------------------------------

  const ClassKeyword := "class"
  const SceneBase := "(Scene):"

  predicate IsIdentifier(name: string) {
    name != [] && forall k :: 0 <= k < |name| ==> IsWordChar(name[k])
  }

  /** The capture of the scene pattern when it matches at the start of `s`. */
  function SceneAt(s: string): (name: Option<string>)
    ensures name.Some? ==> IsIdentifier(name.value)
  {
    if !StartsWith(s, ClassKeyword) then None
    else
      var k := SpanEnd(s, |ClassKeyword|, IsWhitespace);
      var e := SpanEnd(s, k, IsWordChar);
      if k == |ClassKeyword| || e == k || !StartsWith(s[e..], SceneBase) then None
      else Some(s[k..e])
  }

  /** `s` begins `class`, at least one white-space character up to `k`, then `name(Scene):`. */
  predicate SceneDecl(s: string, k: int, name: string) {
    && StartsWith(s, ClassKeyword)
    && |ClassKeyword| < k <= |s|
    && (forall t :: |ClassKeyword| <= t < k ==> IsWhitespace(s[t]))
    && IsIdentifier(name)
    && StartsWith(s[k..], name + SceneBase)
  }

  /** A name the scanner captures comes from a declaration beginning at this point. */
  lemma SceneAtGivesDecl(s: string)
    requires SceneAt(s).Some?
    ensures SceneDecl(s, SpanEnd(s, |ClassKeyword|, IsWhitespace), SceneAt(s).value)
  {
    var name := SceneAt(s).value;
    var k := SpanEnd(s, |ClassKeyword|, IsWhitespace);
    var e := SpanEnd(s, k, IsWordChar);
    var f := e + |SceneBase|;
    assert name == s[k..e];
    assert s[e..f] == SceneBase;
    assert s[k..][..|name + SceneBase|] == s[k..f];
    assert s[k..f] == s[k..e] + s[e..f];
  }

  /** The name a declaration beginning at this point spells out: the word run after the white space. */
  lemma DeclNameIsWordRun(s: string, k: int, name: string)
    requires SceneDecl(s, k, name)
    ensures k + |name| < |s| && s[k..k + |name|] == name
    ensures forall t :: k <= t < k + |name| ==> IsWordChar(s[t])
    ensures !IsWordChar(s[k + |name|]) && !IsWhitespace(s[k])
    ensures StartsWith(s[k + |name|..], SceneBase)
  {
    var e := k + |name|;
    var w := name + SceneBase;
    assert s[k..][..|w|] == w;
    assert s[k..e] == w[..|name|];
    assert w[..|name|] == name;
    assert s[e] == w[|name|];
    assert s[k] == w[0];
    assert s[e..][..|SceneBase|] == w[|name|..];
  }

  /** A declaration beginning at this point is what the scanner captures. */
  lemma DeclGivesSceneAt(s: string, k: int, name: string)
    requires SceneDecl(s, k, name)
    ensures SceneAt(s) == Some(name)
  {
    DeclNameIsWordRun(s, k, name);
    SpanEndUnique(s, |ClassKeyword|, k, IsWhitespace);
    SpanEndUnique(s, k, k + |name|, IsWordChar);
  }

  /** The scanner captures exactly the names of the declarations that begin at this point. */
  lemma SceneAtIsDecl(s: string, name: string)
    ensures SceneAt(s) == Some(name) <==> exists k :: SceneDecl(s, k, name)
  {
    if SceneAt(s) == Some(name) {
      SceneAtGivesDecl(s);
    }
    if k :| SceneDecl(s, k, name) {
      DeclGivesSceneAt(s, k, name);
    }
  }

  datatype SceneMatch = SceneMatch(start: nat, name: string)

  /** The leftmost index at or after `from` where the scene pattern matches. */
  function FirstScene(s: string, from: nat): (m: Option<SceneMatch>)
    requires from <= |s|
    ensures m.Some? ==> from <= m.value.start <= |s| && SceneAt(s[m.value.start..]) == Some(m.value.name)
    ensures forall j :: from <= j <= |s| && (m.None? || j < m.value.start) ==> SceneAt(s[j..]).None?
    decreases |s| - from
  {
    match SceneAt(s[from..])
    case Some(name) => Some(SceneMatch(from, name))
    case None => if from == |s| then None else FirstScene(s, from + 1)
  }

  /** `code.match(/class\s+([a-zA-Z0-9_]+)\(Scene\):/)[1]`, or `None` when there is no match. */
  function SceneName(code: string): (name: Option<string>)
    ensures name.Some? ==> IsIdentifier(name.value) && code != []
    ensures name.Some? ==> exists i :: (0 <= i <= |code| && SceneAt(code[i..]) == name
                                       && forall j :: 0 <= j < i ==> SceneAt(code[j..]).None?)
    ensures name.None? <==> forall i :: 0 <= i <= |code| ==> SceneAt(code[i..]).None?
  {
    match FirstScene(code, 0)
    case Some(m) => Some(m.name)
    case None => None
  }

  /** No name is found exactly when the code declares no scene anywhere. */
  lemma NoSceneMeansNoDeclaration(code: string)
    ensures SceneName(code).None? <==>
      forall i, k, name :: 0 <= i <= |code| ==> !SceneDecl(code[i..], k, name)
  {
    if SceneName(code).None? {
      forall i, k, name | 0 <= i <= |code| ensures !SceneDecl(code[i..], k, name) {
        SceneAtIsDecl(code[i..], name);
      }
    } else {
      var i :| 0 <= i <= |code| && SceneAt(code[i..]) == SceneName(code);
      SceneAtIsDecl(code[i..], SceneName(code).value);
    }
  }
}
